=== FILE: README.md ===
# Music player controls: a Dafny model

This project models the playback-control layer of a desktop music player, the `Player`,
`SoundBar`, `PlayBackBar` and `SongName` classes of `component/Player.py`. It proves
properties of that model. It covers:

- the volume slider: a pointer column is clamped onto a pixel track, and the knob maps to a
  volume of 0 to 100. A mute button parks the knob at the start of the track and later
  restores it;
- the seek slider: the knob maps to 0 to the song's duration in seconds. The knob follows
  the playback clock while the song plays. Its "M:SS / M:SS" label is modelled as a string;
- the transport flags (`_playing`, `_end`, `_last`) and the clock calibration
  `_playing_pos`. The calibration turns the audio engine's free-running millisecond clock
  into seconds into the song. Also modelled: `set_time`, `get_time`, `restart` and
  `change_song`;
- the pointer handlers: `*_pressed`, `*_compressed` (release) and `*_mov` (move), for the
  play/pause and reset buttons and for both sliders;
- the scroll offset of the song title.

The audio engine is an abstract record (`Engine.Mixer`). It has a millisecond clock that
runs while not paused and restarts only when a song is played from its top. It also has a
volume and the last seek. From the last seek the model derives the second actually being
heard (`Engine.Playhead`). The main invariant, `Player.Inv`, says the player's computed
seconds equal that playhead in every reachable state. `Player.Step` applies one pointer,
frame or timer event to the state. `Player.Run` applies a sequence of events. Both return
`None` exactly where the program raises an exception. One case is a division by a zero
duration. The seek slider's press and move handlers divide by it. Every frame divides by it,
because it draws the slider's time label. Releasing an armed reset button, or pressing play
on an ended song, divides by it too, because the restart puts the seek knob back at the
start. The other case is drawing on the title before any song is loaded, which the title
scroll and every frame do.

Screen constants are parameters (`Player.Layout`). Each track is given by its start column
and length, and its end is start plus length, as the layout defines `X_END` and
`SOUND_BAR_X_END`. A track starts at a non-negative column and is at least one pixel long.
The volume knob's starting column lies on the volume track.
Hit tests (`collidepoint`) are boolean inputs to the handlers. Pixels are integers. Times
and volumes are reals.

Files: `wrappers.dfy` (Option), `track.dfy` (clamp, truncation, pixel/value maps),
`sound_bar.dfy`, `playback_bar.dfy`, `time_label.dfy`, `song_name.dfy`, `engine.dfy`,
`player.dfy`.

The model follows the code in three places a reader might expect otherwise:

- `restart` on an ended song always sets `_playing`. It does not look at whether the song
  was playing before it ended.
- `update_song` does not reset the title's scroll offset. Only `reset` does, and
  `change_song` calls it first.
- The volume slider remembers the knob column only when the mute button mutes it. Dragging
  the knob to the start also mutes it, but leaves the remembered column unchanged (see
  Findings).

## Model

| member | source | states |
|---|---|---|
| `Track.Clamp` | component/Player.py:235 | The result lies in [lo, hi] and is the point of that interval nearest the pointer column. |
| `Track.Trunc` | component/Player.py:318-319 | `int()` truncation toward zero: the result is less than one unit from x, and on x's side of zero. |
| `Track.Value` | component/Player.py:231-232 | Pixel offset over pixels per unit: a knob on the track gives a value in [0, range], 0 exactly at the start, the full range exactly at the end. |
| `Track.ValueMonotone` | component/Player.py:304-306 | A knob further right never stands for a smaller value. |
| `Track.PixelOfValue` | component/Player.py:304-310 | Reading a knob's value and drawing that value again lands on the same pixel. |
| `Track.ValueOfPixel` | component/Player.py:304-310 | Drawing a value and reading it back errs by less than one pixel's worth, and never overshoots right of column 0. |
| `Track.PixelInTrack` | component/Player.py:308-310 | A value in [0, range] is drawn on the track, and a value below range is drawn left of the end. |
| `SoundBar.Init` | component/Player.py:218-228 | The corrected start-up bar: knob at its starting column, unmuted, not dragged, invariant established. |
| `SoundBar.InitAsWritten` | component/Player.py:226-228 | The bar as written: the remembered column starts at 0. |
| `SoundBar.Volume` | component/Player.py:230-232 | A knob on the track gives a volume in [0, 100]: 0 exactly at the start of the track, 100 exactly at its end. |
| `SoundBar.SetPos` | component/Player.py:234-237 | The knob goes to the track column nearest the pointer. The bar is muted exactly when the volume is then 0. The invariant (knob on track, muted implies knob at start) is kept. |
| `SoundBar.ReverseState` | component/Player.py:239-245 | The mute flag flips. Muting remembers the knob and parks it at the start; unmuting restores the remembered column. The invariant is kept. |
| `SoundBar.MutedIsSilent` | component/Player.py:230-245 | Under the invariant, a muted bar has volume 0. |
| `SoundBar.ReverseStateTwice` | component/Player.py:239-245 | For any bar whose knob is at the start when muted (the bar as written included), two mute presses restore the knob column and the mute flag, and restore the whole bar when it started muted. |
| `SoundBar.VolumeOfPixel` | component/Player.py:230-237 | Setting the knob at the pixel drawn for volume v reads back v minus less than one pixel's worth. |
| `SoundBar.UnmuteAfterDragMuteLeavesTrack` | component/Player.py:234-245 | As written: drag-mute at the start, then the mute button, puts the knob at column 0, off the track, with a negative volume. |
| `PlayBackBar.Reset` | component/Player.py:298-302 | No song: duration 0, no drag, knob at the track's start. |
| `PlayBackBar.Position` | component/Player.py:304-306 | A knob on the track stands for a time in [0, duration]: 0 exactly at the start, the duration exactly at the end. |
| `PlayBackBar.Moving` | component/Player.py:308-310 | Placing the knob for time t reads back t to within one pixel's worth of seconds, at most t for t ≥ 0. The knob is on the track for t in [0, duration]. |
| `PlayBackBar.SetPos` | component/Player.py:312-315 | The knob goes to the track column nearest the pointer. The returned time is what that knob reads, in [0, duration]. |
| `PlayBackBar.MovingToSeekTarget` | component/Player.py:308-315 | Drawing the time a seek returned puts the knob back on the seek's column. |
| `TimeLabel.NatDecimal` | component/Player.py:320 | `{:d}` yields at least one decimal digit and no leading zero. |
| `TimeLabel.Pad2` | component/Player.py:320 | `{:02d}` of a value below 100 is exactly two digits spelling it. |
| `TimeLabel.DecimalValue` | component/Player.py:320 | The decimal digits of n spell n. |
| `TimeLabel.ClockRoundTrip` | component/Player.py:320 | A minutes-colon-seconds reading of s ≥ 0 parses back to s: minutes are s div 60 with no hour cap, seconds s mod 60. |
| `TimeLabel.LabelRoundTrip` | component/Player.py:320 | "now / total" parses back to both whole-second values. |
| `TimeLabel.ShowTime` | component/Player.py:317-320 | The slider's label, for a knob on the track, parses back to int() of the knob's time and int() of the duration. |
| `SongName.Reset` | component/Player.py:372-375 | No title, offset 0. |
| `SongName.UpdateSong` | component/Player.py:377-379 | The title is the name padded by three spaces each side, with the font's width. The offset is unchanged. |
| `SongName.ShowName` | component/Player.py:381-385 | The offset steps left by one or wraps to 0, staying in [-width, 0]. It wraps only from -width. |
| `SongName.TicksFromStart` | component/Player.py:383-385 | From offset 0, n ticks give offset -n for n ≤ width, and width + 1 ticks give offset 0. |
| `SongName.TicksPeriodic` | component/Player.py:383-385 | From offset 0 the scroll repeats every width + 1 ticks and stays in [-width, 0]. |
| `SongName.TicksValid` | component/Player.py:383-385 | Any number of ticks keeps the offset in [-width, 0]. |
| `Engine.Idle` | component/Player.py:14-15 | The engine before any song: clock frozen at 0, playhead 0. |
| `Engine.Play` | component/Player.py:58 | `play(0)`: clock restarts at 0 and runs, playhead at 0. |
| `Engine.Pause` | component/Player.py:135 | Clock frozen, playhead unchanged. |
| `Engine.Unpause` | component/Player.py:139 | Clock runs, playhead unchanged. |
| `Engine.SetPos` | component/Player.py:155 | The playhead moves to the target. The clock is untouched, which is why the player calibrates. |
| `Engine.SetVolume` | component/Player.py:174 | Only the engine volume changes. |
| `Engine.Advance` | component/Player.py:160 | Time passing moves the clock and playhead together while running, and neither while paused. |
| `Player.Init` | component/Player.py:13-34 | The start-up player (with the corrected volume slider): not playing, not ended, no song, volume 50, invariant established. |
| `Player.ElapsedNonNegative` | component/Player.py:160 | In a reachable state the computed seconds into the song are never negative. |
| `Player.Reset` | component/Player.py:46-53 | All flags down, calibration 0, no song, seek slider and title cleared. Volume, engine and reset button untouched. |
| `Player.SetVolume` | component/Player.py:173-174 | The engine gets the stored volume as a fraction; nothing else changes. |
| `Player.Pause` | component/Player.py:134-136 | Not playing, engine paused, seconds unchanged. |
| `Player.Unpause` | component/Player.py:138-140 | Playing, engine running, seconds unchanged. |
| `Player.TitleOf` | component/Player.py:39 | The title is the path with its first seven characters removed, or empty for a shorter path. |
| `Player.ChangeSong` | component/Player.py:36-44 | Every loaded song starts paused at second 0, not ended, with the given duration and the stored volume. The volume slider, the stored volume and the reset button are unchanged. The invariant is kept. |
| `Player.Restart` | component/Player.py:60-70 | Back at second 0, not ended, knob at the track start. Playing iff it was playing or had ended, and the engine follows at an unchanged volume. The invariant is kept. |
| `Player.CheckRestart` | component/Player.py:72-74 | Only an ended song is restarted, and it then plays from second 0. |
| `Player.SetTime` | component/Player.py:145-157 | The player then reads back exactly min(target, duration), and the engine plays that same second. Ended stays up only for a target at or past the end. A non-playing song stays paused. |
| `Player.GetTime` | component/Player.py:159-168 | With dt ≥ 0 the reading never exceeds the duration. When the frame reaches the end: reading = duration, ended up, playing down, nothing else changed. Before that, nothing changes. |
| `Player.SetTimeThenGetTime` | component/Player.py:145-168 | A seek read back in a zero-length frame gives min(target, duration), and below the duration leaves the state alone. |
| `Player.GetTimeTwice` | component/Player.py:159-168 | Reading the time twice in one frame equals reading it once. |
| `Player.SyncVolume` | component/Player.py:180-181 | The stored and engine volumes become the slider's volume (engine as a fraction). The invariant is kept. |
| `Player.FollowClock` | component/Player.py:183-187 | The end-of-song rule, then, while playing, the seek knob placed within one pixel of the current time. |
| `Player.Frame` | component/Player.py:179-194 | One frame needs a positive duration, because drawing the seek slider's label divides by it. Volume synced to the slider. Seconds unchanged. Ended detected once the frame reaches the duration. The knob follows the clock while playing and is left alone otherwise. Nothing else changes. The invariant is kept. |
| `Player.VolumeBtnPressed` | component/Player.py:79-81 | A hit toggles mute on the volume slider; a miss changes nothing. |
| `Player.PlayBtnPressed` | component/Player.py:83-86 | A hit on an ended song plays it from second 0 with the engine running and the seek knob at the track start, all else unchanged. A hit otherwise flips the playing flag. A miss changes nothing. |
| `Player.PlayBtnCompressed` | component/Player.py:88-92 | On release the engine's paused state is made to match the playing flag. The engine's clock, playhead and volume and the player's own fields are unchanged. |
| `Player.PlayClick` | component/Player.py:83-92 | Press and release on play: an ended song plays from 0 with the engine running; otherwise play/pause flips and the engine follows. |
| `Player.ResetBtnPressed` | component/Player.py:94-96 | A hit arms the reset button; a miss leaves it as it was. Nothing else changes, and the invariant is kept. |
| `Player.ResetBtnCompressed` | component/Player.py:98-101 | Releasing an armed button disarms it and restarts the song: second 0, knob at the track start, not ended, playing iff it was playing or had ended, the engine following, all else unchanged. Releasing an unarmed button changes nothing. |
| `Player.ResetClick` | component/Player.py:94-101 | Press and release on reset: second 0, knob at start, not ended, playing iff playing or ended before. |
| `Player.PlayBarPressed` | component/Player.py:103-108 | A hit seeks to the pointer's column, records whether the song was playing, pauses it, and starts a drag. Ended stays up only when the knob lands at the track's end. The volume slider, song, title and reset button are unchanged. The invariant is kept. |
| `Player.PlayBarCompressed` | component/Player.py:110-115 | Releasing a drag ends it. It resumes playback, with the engine running from the same second, only if the song was playing before and has not ended. Nothing else changes. |
| `Player.PlayBarMov` | component/Player.py:117-119 | During a drag, a move seeks to the pointer's column and keeps the playing and was-playing flags. Ended stays up only at the track's end. The rest is unchanged. Without a drag nothing changes. |
| `Player.DragKeepsPaused` | component/Player.py:117-119 | Moves during a drag keep the player paused and dragging. They keep the was-playing flag, never raise ended, and leave the seconds at the knob's time. |
| `Player.SeekDragRestoresPlayback` | component/Player.py:103-119 | Press, any moves, release: playing again exactly when it was playing before, at the knob's time. |
| `Player.SoundBarPressed` | component/Player.py:121-124 | A hit moves the volume knob to the pointer and starts a drag, without pausing. |
| `Player.SoundBarCompressed` | component/Player.py:126-128 | Release ends the volume drag; nothing else changes, and the invariant is kept. |
| `Player.SoundBarMov` | component/Player.py:130-132 | During a volume drag the knob follows the pointer; otherwise nothing changes. |
| `Player.Advance` | component/Player.py:160 | While the engine runs, the player's seconds move on with its clock, in step with the playhead. |
| `Player.Scroll` | component/Player.py:381-385 | A timer tick moves the title's offset one pixel left or wraps it to 0, keeps the title and its width, and changes nothing else. The invariant is kept. |
| `Player.StepPreservesInv` | component/Player.py:79-194 | Every event keeps the invariant. The program raises exactly when, at zero duration, the seek slider is pressed or dragged, a frame is drawn, an armed reset button is released, or play is pressed on an ended song; or when the title is scrolled before any song. |
| `Player.RunPreservesInv` | component/Player.py:79-187 | Any event sequence from a reachable state ends in a reachable state. |
| `Player.Reachable` | component/Player.py:13-187 | From the corrected start-up, the volume knob stays on its track, the volume in [0, 100], the seconds non-negative and equal to the engine's playhead, and an ended song never plays. |
| `Player.InitAsWritten` | component/Player.py:26-28 | The start-up player as written: it differs from the corrected one only in the volume slider's remembered column, which is 0. When the volume track starts right of column 0 it violates the invariant. |
| `Player.NegativeVolumeAsWritten` | component/Player.py:121-187 | As written, load a song, volume-drag to the start, mute button, one frame: the player's volume is negative. |

## Left out

- Drawing: the `show` methods of both sliders, the text surface in `show_time`, and the font
  rendering in `update_song`. Also the blits in `show_name` and `showing`, and the button
  images. These are rendering only. The title's rendered width is an input to
  `Player.ChangeSong`.
- The audio library itself: load, play, pause, set_pos, queue and volume calls. It is
  replaced by the abstract `Engine.Mixer`. `Player.start` is folded into
  `Player.ChangeSong`. `Player.stop`, `Player.add_song` and `Player.get_volume` only
  forward to the library and hold no player state, so they are not modelled.
- The engine stopping at the end of the file is not modelled: the engine's clock runs freely.
  The library's clock reads -1 before anything is played; the model's idle clock reads 0.
- `component/Audio.py` (`load`, `update_bars`), `component/Button.py`, `setting` and
  `utils.common.clamp` are not part of this model. `Track.Clamp` is defined by its
  nearest-point contract. The screen constants are the `Player.Layout` parameters.
- The duration probe of the decoding library: the duration is an input, never negative.
- The `print("The end")` call in `get_time`.
- Floating point: times and volumes are exact reals. The pixel a float lands on is modelled
  as truncation toward zero (`Track.Trunc`).
- Initial knob columns are computed from unseen radius/size constants. The volume knob's
  start column is the `Layout.soundHome` parameter, assumed to lie on the volume track. The seek knob's reset column is taken
  as `X_START`: a circle rectangle of size `BAR_CIRCLE_SIZE` at `X_START - BAR_CIRCLE_RADIUS`
  has that centre when the size is twice the radius.
- The drag flags also set the drawn knob size in the source. The model keeps them as the
  state that gates the release and move handlers, and draws nothing.
- The program's event loop is not part of this model. `Player.Step` applies exactly one
  handler per event, with the hit test supplied as a boolean.
- SoundBar.ReverseStateTwice: it requires a muted knob to sit at the track start. For a
  muted bar whose knob is elsewhere (a state no handler produces), two presses do not
  restore the knob.
- Player.ChangeSong: it requires a non-negative duration, which is all the duration probe
  can return. The source itself does not check it.

## Findings

| source | as written | input that shows it | evidently intended | confidence | as-written member | corrected member |
|---|---|---|---|---|---|---|
| component/Player.py:226 | The volume slider's remembered column `_last` starts at 0. Only the mute button updates it, and `set_pos` can mute without touching it. | Any layout with `SOUND_BAR_X_START > 0`: load a song, press on the volume slider at or left of its start (mutes), then press the mute button. The knob goes to column 0, off the track, and the next frame reads a negative volume. | The remembered column starts on the track (the knob's starting column), so unmuting always puts the knob back on the track. | high for the knob leaving the track whenever the track starts right of column 0 (the mute button drawn at `SOUND_BAR_X_START - 26` suggests it does); not executed | `SoundBar.UnmuteAfterDragMuteLeavesTrack` (with `SoundBar.InitAsWritten`, and end to end `Player.NegativeVolumeAsWritten`) | `SoundBar.Init`, used by `Player.Init`, with `Player.Reachable` proving the knob stays on its track and the volume in [0, 100] |

=== FILE: engine.dfy ===
/** The audio engine the player drives, reduced to what the player reads and writes: a
    millisecond clock that runs while not paused and restarts only when a song is played
    from the top, a volume, and where the last seek put the playhead. */
module Engine {

  /** clock: milliseconds the engine reports it has been playing; paused: the clock is
      frozen; volume: 0.0 to 1.0; seekTarget, seekClock: the second the last seek moved
      the playhead to, and the clock reading at that moment. */
  datatype Mixer = Mixer(clock: int, paused: bool, volume: real, seekTarget: real, seekClock: int)

  predicate Valid(m: Mixer) {
    && 0 <= m.seekClock <= m.clock
    && 0.0 <= m.seekTarget
    && 0.0 <= m.volume <= 1.0
  }

  /** Nothing played yet: clock at 0 and frozen, full volume. */
  function Idle(): (m: Mixer)
    ensures Valid(m) && m.paused && Playhead(m) == 0.0
  {
    Mixer(0, true, 1.0, 0.0, 0)
  }

  /** The second of the song being heard: the last seek target plus the clock run since. */
  function Playhead(m: Mixer): real {
    m.seekTarget + (m.clock - m.seekClock) as real / 1000.0
  }

  /** Plays the loaded song from its start: the clock restarts at 0 and runs. */
  function Play(m: Mixer): (r: Mixer)
    ensures Valid(m) ==> Valid(r)
    ensures r.clock == 0 && !r.paused && Playhead(r) == 0.0 && r.volume == m.volume
  {
    m.(clock := 0, paused := false, seekTarget := 0.0, seekClock := 0)
  }

  function Pause(m: Mixer): (r: Mixer)
    ensures Valid(m) ==> Valid(r)
    ensures r.paused && r.clock == m.clock && Playhead(r) == Playhead(m) && r.volume == m.volume
  {
    m.(paused := true)
  }

  function Unpause(m: Mixer): (r: Mixer)
    ensures Valid(m) ==> Valid(r)
    ensures !r.paused && r.clock == m.clock && Playhead(r) == Playhead(m) && r.volume == m.volume
  {
    m.(paused := false)
  }

  /** Moves the playhead to a second of the song. The clock is not touched: it keeps
      counting how long the engine has played, whatever the seeks. */
  function SetPos(m: Mixer, time: real): (r: Mixer)
    ensures Valid(m) && 0.0 <= time ==> Valid(r)
    ensures Playhead(r) == time && r.clock == m.clock && r.paused == m.paused && r.volume == m.volume
  {
    m.(seekTarget := time, seekClock := m.clock)
  }

  function SetVolume(m: Mixer, v: real): (r: Mixer)
    ensures Valid(m) && 0.0 <= v <= 1.0 ==> Valid(r)
    ensures r.volume == v && r.clock == m.clock && r.paused == m.paused && Playhead(r) == Playhead(m)
  {
    m.(volume := v)
  }

  /** Real time passing: a running clock and the playhead both move on by ms
      milliseconds; a paused one stays put. */
  function Advance(m: Mixer, ms: nat): (r: Mixer)
    ensures Valid(m) ==> Valid(r)
    ensures r.paused == m.paused && r.volume == m.volume
    ensures r.clock == if m.paused then m.clock else m.clock + ms
    ensures Playhead(r) == if m.paused then Playhead(m) else Playhead(m) + ms as real / 1000.0
  {
    if m.paused then m else m.(clock := m.clock + ms)
  }
}

=== FILE: playback_bar.dfy ===
/** The seek slider: a knob on a fixed pixel track standing for a playback time between
    0 and the track's duration in seconds. */
module PlayBackBar {
  import opened Track

  /** knob: the knob's centre column; duration: the song's length in seconds (0 when no
      song is loaded); dragging: the pointer grabbed the knob and has not let go. */
  datatype Bar = Bar(knob: int, duration: real, dragging: bool)

  /** No song: zero duration, not dragged, the knob centred on the track's start. */
  function Reset(t: Track): (b: Bar)
    ensures b.knob == t.start && b.duration == 0.0 && !b.dragging
  {
    Bar(t.start, 0.0, false)
  }

  /** The playback time, in seconds, that the knob stands for. The program divides by the
      duration here, so it fails with no song loaded. */
  function Position(t: Track, b: Bar): (s: real)
    requires Valid(t) && 0.0 < b.duration
    ensures Contains(t, b.knob) ==> 0.0 <= s <= b.duration
    ensures s == 0.0 <==> b.knob == t.start
    ensures s == b.duration <==> b.knob == End(t)
  {
    Value(t, b.knob, b.duration)
  }

  /** Puts the knob where a playback time is drawn, as the program does every frame while
      playing. The knob then reads back that time to within one pixel's worth of seconds,
      never more than it for a non-negative time, and sits on the track for a time inside
      the song. */
  function Moving(t: Track, b: Bar, time: real): (r: Bar)
    requires Valid(t) && 0.0 < b.duration
    ensures r.duration == b.duration && r.dragging == b.dragging
    ensures time - b.duration / t.length as real < Position(t, r) < time + b.duration / t.length as real
    ensures 0.0 <= time ==> Position(t, r) <= time
    ensures 0.0 <= time <= b.duration ==> Contains(t, r.knob)
    ensures 0.0 <= time < b.duration ==> r.knob < End(t)
  {
    ValueOfPixel(t, time, b.duration);
    PixelInTrack(t, time, b.duration);
    b.(knob := Pixel(t, time, b.duration))
  }

  /** Moves the knob to the pointer column bounded onto the track and returns the playback
      time the knob now stands for, which lies within the song. */
  function SetPos(t: Track, b: Bar, x: int): (r: (Bar, real))
    requires Valid(t) && 0.0 < b.duration
    ensures Contains(t, r.0.knob)
    ensures forall y :: Contains(t, y) ==> Dist(r.0.knob, x) <= Dist(y, x)
    ensures r.0.duration == b.duration && r.0.dragging == b.dragging
    ensures r.1 == Position(t, r.0) && 0.0 <= r.1 <= b.duration
  {
    var nb := b.(knob := Clamp(t.start, End(t), x));
    (nb, Position(t, nb))
  }

  /** Drawing the time a seek chose puts the knob back on the column the pointer chose. */
  lemma MovingToSeekTarget(t: Track, b: Bar, x: int)
    requires Valid(t) && 0.0 < b.duration
    ensures var (nb, time) := SetPos(t, b, x); Moving(t, nb, time) == nb
  {
    var (nb, time) := SetPos(t, b, x);
    PixelOfValue(t, nb.knob, b.duration);
  }
}

=== FILE: player.dfy ===
/** The player: the playing / ended / was-playing flags, the clock calibration that turns
    the engine's free-running clock into seconds into the song, the seek and volume
    sliders, the reset button, and the pointer handlers that drive them. */
module Player {
  import opened Wrappers
  import opened Track
  import SoundBar
  import PlayBackBar
  import SongName
  import Engine

  /** The screen layout: the seek track (X_START, LENGTH), the volume track
      (SOUND_BAR_X_START, SOUND_BAR_LENGTH) and the column the volume knob starts at. */
  datatype Layout = Layout(seek: Track, sound: Track, soundHome: int)

  predicate LayoutValid(lay: Layout) {
    Valid(lay.seek) && Valid(lay.sound) && Contains(lay.sound, lay.soundHome)
  }

  /** playingPos: the calibration, in engine milliseconds, subtracted from the engine clock;
      volume: 0 to 100, as last read off the volume slider; last: whether the song was
      playing when a seek drag began; playing, end: the transport flags; song: the loaded
      file; resetArmed: the reset button was pressed and not yet released. */
  datatype State = State(
    playingPos: real,
    volume: real,
    last: bool,
    playing: bool,
    end: bool,
    song: Option<string>,
    name: SongName.Marquee,
    sound: SoundBar.Bar,
    bar: PlayBackBar.Bar,
    resetArmed: bool,
    mixer: Engine.Mixer)

  /** Seconds into the song, as the player computes them from the engine clock. */
  function Elapsed(p: State): real {
    (p.mixer.clock as real - p.playingPos) / 1000.0
  }

  function Min(a: real, b: real): real {
    if a <= b then a else b
  }

  /** What holds of every state the program can reach: the knobs sit on their tracks, a
      muted volume knob sits at the start, an ended song is not playing, the duration is
      not negative, a song of positive length has its title, and the player's seconds
      agree with what the engine is playing. */
  predicate Inv(lay: Layout, p: State) {
    && LayoutValid(lay)
    && SoundBar.Consistent(lay.sound, p.sound)
    && Contains(lay.seek, p.bar.knob)
    && 0.0 <= p.bar.duration
    && (p.end ==> !p.playing)
    && Engine.Valid(p.mixer)
    && Elapsed(p) == Engine.Playhead(p.mixer)
    && SongName.Valid(p.name)
    && (0.0 < p.bar.duration ==> p.name.name.Some?)
    && 0.0 <= p.volume <= 100.0
  }

  /** Seconds into the song are never negative in a reachable state. */
  lemma ElapsedNonNegative(lay: Layout, p: State)
    requires Inv(lay, p)
    ensures 0.0 <= Elapsed(p)
  {
  }

  /** The player as the program builds it, with the volume slider's remembered column
      started at the knob's starting column. */
  function Init(lay: Layout): (p: State)
    requires LayoutValid(lay)
    ensures Inv(lay, p)
    ensures !p.playing && !p.end && !p.last && p.song.None? && p.volume == 50.0
  {
    State(0.0, 50.0, false, false, false, None, SongName.Marquee(None, 0, 0),
          SoundBar.Init(lay.sound, lay.soundHome), PlayBackBar.Reset(lay.seek), false,
          Engine.Idle())
  }

  /** Forgets the song: flags down, calibration 0, seek slider and title cleared. The
      volume slider, the engine and the reset button are left alone. */
  function Reset(lay: Layout, p: State): (r: State)
    ensures !r.playing && !r.end && !r.last && r.song.None? && r.playingPos == 0.0
    ensures r.bar == PlayBackBar.Reset(lay.seek) && r.name.name.None? && r.name.x == 0
    ensures r.sound == p.sound && r.volume == p.volume && r.mixer == p.mixer && r.resetArmed == p.resetArmed
  {
    p.(playingPos := 0.0, song := None, last := false, playing := false, end := false,
       bar := PlayBackBar.Reset(lay.seek), name := SongName.Reset(p.name))
  }

  /** Hands the stored volume, as a fraction, to the engine. */
  function SetVolume(p: State): (r: State)
    ensures r.mixer.volume == p.volume / 100.0
    ensures r == p.(mixer := r.mixer)
    ensures Engine.Playhead(r.mixer) == Engine.Playhead(p.mixer) && r.mixer.clock == p.mixer.clock
    ensures r.mixer.paused == p.mixer.paused
  {
    p.(mixer := Engine.SetVolume(p.mixer, p.volume / 100.0))
  }

  function Pause(p: State): (r: State)
    ensures !r.playing && r.mixer.paused && Elapsed(r) == Elapsed(p)
    ensures r == p.(playing := false, mixer := r.mixer)
    ensures Engine.Playhead(r.mixer) == Engine.Playhead(p.mixer) && r.mixer.volume == p.mixer.volume
  {
    p.(mixer := Engine.Pause(p.mixer), playing := false)
  }

  function Unpause(p: State): (r: State)
    ensures r.playing && !r.mixer.paused && Elapsed(r) == Elapsed(p)
    ensures r == p.(playing := true, mixer := r.mixer)
    ensures Engine.Playhead(r.mixer) == Engine.Playhead(p.mixer) && r.mixer.volume == p.mixer.volume
  {
    p.(mixer := Engine.Unpause(p.mixer), playing := true)
  }

  /** The part of the path shown as the title: everything after its first seven
      characters, as Python's filename[7:] gives it. */
  function TitleOf(filename: string): (s: string)
    ensures |filename| <= 7 ==> s == []
    ensures 7 < |filename| ==> filename == filename[..7] + s
  {
    if |filename| <= 7 then [] else filename[7..]
  }

  /** Loads a song of the given duration whose title renders `width` pixels wide: every
      song starts loaded, paused, at second 0, not ended, at the stored volume. */
  function ChangeSong(lay: Layout, p: State, filename: string, duration: real, width: nat): (r: State)
    requires 0.0 <= duration
    ensures !r.playing && !r.end && !r.last && r.mixer.paused
    ensures r.song == Some(filename) && r.bar.duration == duration && !r.bar.dragging
    ensures r.bar.knob == lay.seek.start
    ensures Elapsed(r) == 0.0 && Engine.Playhead(r.mixer) == 0.0
    ensures r.mixer.volume == p.volume / 100.0
    ensures r.name == SongName.Marquee(Some("   " + TitleOf(filename) + "   "), width, 0)
    ensures r.sound == p.sound && r.volume == p.volume && r.resetArmed == p.resetArmed
    ensures Inv(lay, p) ==> Inv(lay, r)
  {
    var p1 := Reset(lay, p);
    var p2 := p1.(song := Some(filename),
                  name := SongName.UpdateSong(p1.name, TitleOf(filename), width),
                  bar := p1.bar.(duration := duration));
    var p3 := SetVolume(p2);
    var p4 := p3.(mixer := Engine.Play(p3.mixer));
    Pause(p4)
  }

  /** Plays the song again from its start. A song that had ended starts playing; otherwise
      it keeps its playing flag. The seek knob goes to the start of the track, which reads
      the knob's time, so it needs a song of positive duration. */
  function Restart(lay: Layout, p: State): (r: State)
    requires LayoutValid(lay) && 0.0 < p.bar.duration
    ensures !r.end && r.playing == (p.playing || p.end) && r.playingPos == 0.0
    ensures r.bar.knob == lay.seek.start && r.bar.duration == p.bar.duration
    ensures Elapsed(r) == 0.0 && Engine.Playhead(r.mixer) == 0.0 && r.mixer.paused == !r.playing
    ensures r.mixer.volume == p.mixer.volume
    ensures r.sound == p.sound && r.last == p.last && r.volume == p.volume && r.song == p.song
    ensures r.name == p.name && r.resetArmed == p.resetArmed && r.bar.dragging == p.bar.dragging
    ensures Inv(lay, p) ==> Inv(lay, r)
  {
    var playing := if p.end then true else p.playing;
    var p1 := p.(playing := playing, end := false, playingPos := 0.0, mixer := Engine.Play(p.mixer));
    var p2 := p1.(bar := PlayBackBar.SetPos(lay.seek, p1.bar, 0).0);
    if !p2.playing then Pause(p2) else p2
  }

  /** Restarts only a song that has ended. */
  function CheckRestart(lay: Layout, p: State): (r: State)
    requires LayoutValid(lay) && (p.end ==> 0.0 < p.bar.duration)
    ensures !p.end ==> r == p
    ensures p.end ==> !r.end && r.playing && Elapsed(r) == 0.0
  {
    if p.end then Restart(lay, p) else p
  }

  /** Flips the playing flag, leaving the engine to be told on release. */
  function ReverseState(p: State): (r: State)
    ensures r.playing == !p.playing && r == p.(playing := r.playing)
  {
    p.(playing := !p.playing)
  }

  /** Seeks to `time` seconds, bounded above by the duration. Seeking below the duration
      clears the ended flag; an ended song is first replayed from the top so the engine
      can seek in it again. Afterwards the player reads back exactly the bounded time,
      which is also what the engine is playing, and a song that is not playing stays
      paused. */
  function SetTime(p: State, time: real): (r: State)
    ensures Elapsed(r) == Min(time, p.bar.duration)
    ensures Engine.Playhead(r.mixer) == Elapsed(r)
    ensures r.end <==> p.end && p.bar.duration <= time
    ensures r.playing == p.playing
    ensures !r.playing ==> r.mixer.paused
    ensures !p.end ==> r.mixer.paused == (p.mixer.paused || !p.playing)
    ensures r == p.(end := r.end, playingPos := r.playingPos, mixer := r.mixer)
    ensures r.mixer.volume == p.mixer.volume
    ensures Engine.Valid(p.mixer) && 0.0 <= time && 0.0 <= p.bar.duration ==> Engine.Valid(r.mixer)
  {
    var p1 := if p.end then p.(playingPos := 0.0, mixer := Engine.Play(p.mixer)) else p;
    var duration := p1.bar.duration;
    var t := if time >= duration then duration else time;
    var ended := if time >= duration then p1.end else false;
    var p2 := p1.(end := ended, playingPos := p1.mixer.clock as real - t * 1000.0,
                  mixer := Engine.SetPos(p1.mixer, t));
    if !p2.playing then p2.(mixer := Engine.Pause(p2.mixer)) else p2
  }

  /** Reads the seconds into the song for a frame lasting `dt` seconds. Once the frame
      would reach the duration the song has ended: the reading is exactly the duration,
      the ended flag goes up and the playing flag down, and nothing else changes. Before
      that, the reading is the calibrated clock and the state is untouched. */
  function GetTime(p: State, dt: real): (r: (real, State))
    ensures 0.0 <= dt ==> r.0 <= p.bar.duration
    ensures p.bar.duration <= Elapsed(p) + dt ==>
      r.0 == p.bar.duration && r.1 == p.(end := true, playing := false)
    ensures Elapsed(p) + dt < p.bar.duration ==> r.0 == Elapsed(p) && r.1 == p
  {
    var time := Elapsed(p);
    if time + dt >= p.bar.duration then (p.bar.duration, p.(end := true, playing := false))
    else (time, p)
  }

  /** Whether the frame moves the seek knob: the song is still playing after the
      end-of-song check. */
  predicate KnobFollows(p: State, dt: real) {
    p.playing && Elapsed(p) + dt < p.bar.duration
  }

  /** Reads the volume off its slider and hands it, as a fraction, to the engine. */
  function SyncVolume(lay: Layout, p: State): (r: State)
    requires LayoutValid(lay)
    ensures r.volume == SoundBar.Volume(lay.sound, p.sound) && r.mixer.volume == r.volume / 100.0
    ensures r == p.(volume := r.volume, mixer := r.mixer)
    ensures r.mixer == p.mixer.(volume := r.mixer.volume)
    ensures Inv(lay, p) ==> Inv(lay, r)
  {
    SetVolume(p.(volume := SoundBar.Volume(lay.sound, p.sound)))
  }

  /** The end-of-song check, then, while still playing, the seek knob moved to the time
      read a second time. The second reading is the first one again, so the knob follows
      the clock to within a pixel. */
  function FollowClock(lay: Layout, p: State, dt: real): (r: State)
    requires LayoutValid(lay) && 0.0 < p.bar.duration
    ensures p.bar.duration <= Elapsed(p) + dt ==> r == p.(end := true, playing := false)
    ensures Elapsed(p) + dt < p.bar.duration && !p.playing ==> r == p
    ensures KnobFollows(p, dt) ==> r == p.(bar := r.bar)
    ensures KnobFollows(p, dt) ==> r.bar.duration == p.bar.duration
    ensures KnobFollows(p, dt) ==>
      (var slack := p.bar.duration / lay.seek.length as real;
       Elapsed(p) - slack < PlayBackBar.Position(lay.seek, r.bar) < Elapsed(p) + slack)
    ensures KnobFollows(p, dt) && 0.0 <= Elapsed(p) ==>
      PlayBackBar.Position(lay.seek, r.bar) <= Elapsed(p)
    ensures Inv(lay, p) && 0.0 <= dt ==> Inv(lay, r)
  {
    var (_, p2) := GetTime(p, dt);
    if p2.playing then
      var (t, p3) := GetTime(p2, dt);
      p3.(bar := PlayBackBar.Moving(lay.seek, p3.bar, t))
    else p2
  }

  /** The per-frame update: the volume handed to the engine, then the end-of-song check
      and the seek knob following the clock. The frame itself does not move the clock.
      Drawing the seek slider's label reads the knob's time, which divides by the duration,
      so a frame needs a song of positive length. */
  function Frame(lay: Layout, p: State, dt: real): (r: State)
    requires LayoutValid(lay) && 0.0 < p.bar.duration
    ensures r.volume == SoundBar.Volume(lay.sound, p.sound) && r.mixer.volume == r.volume / 100.0
    ensures r.mixer == p.mixer.(volume := r.mixer.volume)
    ensures r.sound == p.sound && r.song == p.song && r.name == p.name && r.last == p.last
    ensures r.resetArmed == p.resetArmed && r.playingPos == p.playingPos
    ensures r.bar.duration == p.bar.duration && r.bar.dragging == p.bar.dragging
    ensures !KnobFollows(p, dt) ==> r.bar == p.bar
    ensures Elapsed(r) == Elapsed(p)
    ensures p.bar.duration <= Elapsed(p) + dt ==> r.end && !r.playing
    ensures Elapsed(p) + dt < p.bar.duration ==> r.end == p.end && r.playing == p.playing
    ensures KnobFollows(p, dt) ==>
      (var slack := p.bar.duration / lay.seek.length as real;
       Elapsed(p) - slack < PlayBackBar.Position(lay.seek, r.bar) < Elapsed(p) + slack)
    ensures KnobFollows(p, dt) && 0.0 <= Elapsed(p) ==>
      PlayBackBar.Position(lay.seek, r.bar) <= Elapsed(p)
    ensures Inv(lay, p) && 0.0 <= dt ==> Inv(lay, r)
  {
    FollowClock(lay, SyncVolume(lay, p), dt)
  }

  /** The mute button. */
  function VolumeBtnPressed(lay: Layout, p: State, hit: bool): (r: State)
    ensures hit ==> r == p.(sound := SoundBar.ReverseState(lay.sound, p.sound))
    ensures !hit ==> r == p
    ensures Inv(lay, p) ==> Inv(lay, r)
  {
    if hit then p.(sound := SoundBar.ReverseState(lay.sound, p.sound)) else p
  }

  /** Pressing the play/pause button flips the playing flag; pressing it on a song that
      has ended plays it again from the top. */
  function PlayBtnPressed(lay: Layout, p: State, hit: bool): (r: State)
    requires LayoutValid(lay) && (hit && p.end ==> 0.0 < p.bar.duration)
    ensures hit && p.end ==> r.playing && !r.end && Elapsed(r) == 0.0 && !r.mixer.paused
    ensures hit && p.end ==> r.bar.knob == lay.seek.start && r.bar.duration == p.bar.duration
    ensures hit && p.end ==> r.mixer.volume == p.mixer.volume
    ensures hit && p.end ==>
      && r.sound == p.sound && r.volume == p.volume && r.last == p.last && r.song == p.song
      && r.name == p.name && r.resetArmed == p.resetArmed && r.bar.dragging == p.bar.dragging
    ensures hit && !p.end ==> r == p.(playing := !p.playing)
    ensures !hit ==> r == p
    ensures Inv(lay, p) ==> Inv(lay, r)
  {
    if hit then CheckRestart(lay, ReverseState(p)) else p
  }

  /** Releasing the pointer tells the engine what the playing flag says. */
  function PlayBtnCompressed(p: State): (r: State)
    ensures r.playing == p.playing && r.mixer.paused == !p.playing
    ensures r == p.(mixer := r.mixer) && Elapsed(r) == Elapsed(p)
    ensures Engine.Playhead(r.mixer) == Engine.Playhead(p.mixer)
    ensures r.mixer.clock == p.mixer.clock && r.mixer.volume == p.mixer.volume
  {
    if p.playing then Unpause(p) else Pause(p)
  }

  /** Pressing the reset button arms it. */
  function ResetBtnPressed(lay: Layout, p: State, hit: bool): (r: State)
    ensures r == p.(resetArmed := p.resetArmed || hit)
    ensures Inv(lay, p) ==> Inv(lay, r)
  {
    if hit then p.(resetArmed := true) else p
  }

  /** Releasing an armed reset button restarts the song and disarms the button. */
  function ResetBtnCompressed(lay: Layout, p: State): (r: State)
    requires LayoutValid(lay) && (p.resetArmed ==> 0.0 < p.bar.duration)
    ensures !r.resetArmed
    ensures p.resetArmed ==> !r.end && Elapsed(r) == 0.0 && r.playing == (p.playing || p.end)
    ensures p.resetArmed ==> r.mixer.paused == !r.playing && Engine.Playhead(r.mixer) == 0.0
    ensures p.resetArmed ==> r.bar.knob == lay.seek.start && r.bar.duration == p.bar.duration
    ensures p.resetArmed ==> r.mixer.volume == p.mixer.volume
    ensures p.resetArmed ==>
      && r.sound == p.sound && r.volume == p.volume && r.last == p.last && r.song == p.song
      && r.name == p.name && r.bar.dragging == p.bar.dragging
    ensures !p.resetArmed ==> r == p
    ensures Inv(lay, p) ==> Inv(lay, r)
  {
    if p.resetArmed then Restart(lay, p).(resetArmed := false) else p
  }

  /** Pressing on the seek slider seeks to the pointer, remembers whether the song was
      playing, pauses it and starts a drag. */
  function PlayBarPressed(lay: Layout, p: State, hit: bool, x: int): (r: State)
    requires LayoutValid(lay) && (hit ==> 0.0 < p.bar.duration)
    ensures hit ==> r.last == p.playing && !r.playing && r.mixer.paused
    ensures hit ==> r.bar == p.bar.(knob := Clamp(lay.seek.start, End(lay.seek), x), dragging := true)
    ensures hit ==> Elapsed(r) == PlayBackBar.Position(lay.seek, r.bar)
    ensures hit ==> Engine.Playhead(r.mixer) == Elapsed(r) && r.mixer.volume == p.mixer.volume
    ensures hit ==> (r.end <==> p.end && r.bar.knob == End(lay.seek))
    ensures hit ==>
      && r.sound == p.sound && r.volume == p.volume && r.song == p.song
      && r.name == p.name && r.resetArmed == p.resetArmed
    ensures !hit ==> r == p
    ensures Inv(lay, p) ==> Inv(lay, r)
  {
    if hit then
      var (bar, time) := PlayBackBar.SetPos(lay.seek, p.bar, x);
      var p1 := SetTime(p.(bar := bar), time);
      var p2 := p1.(last := p1.playing);
      var p3 := Pause(p2);
      p3.(bar := p3.bar.(dragging := true))
    else p
  }

  /** Releasing a seek drag ends it and resumes the song if it was playing when the drag
      began and has not ended since. */
  function PlayBarCompressed(p: State): (r: State)
    ensures p.bar.dragging ==> !r.bar.dragging
    ensures p.bar.dragging && p.last && !p.end ==>
      && r == p.(bar := p.bar.(dragging := false), playing := true, mixer := r.mixer)
      && !r.mixer.paused && r.mixer.clock == p.mixer.clock
      && Engine.Playhead(r.mixer) == Engine.Playhead(p.mixer) && r.mixer.volume == p.mixer.volume
    ensures p.bar.dragging && !(p.last && !p.end) ==> r == p.(bar := p.bar.(dragging := false))
    ensures !p.bar.dragging ==> r == p
    ensures Elapsed(r) == Elapsed(p)
  {
    if p.bar.dragging then
      var p1 := p.(bar := p.bar.(dragging := false));
      if p1.last && !p1.end then Unpause(p1) else p1
    else p
  }

  /** Moving the pointer during a seek drag seeks to it; otherwise nothing happens. */
  function PlayBarMov(lay: Layout, p: State, x: int): (r: State)
    requires LayoutValid(lay) && (p.bar.dragging ==> 0.0 < p.bar.duration)
    ensures p.bar.dragging ==> r.bar == p.bar.(knob := Clamp(lay.seek.start, End(lay.seek), x))
    ensures p.bar.dragging ==> Elapsed(r) == PlayBackBar.Position(lay.seek, r.bar)
    ensures p.bar.dragging ==> Engine.Playhead(r.mixer) == Elapsed(r) && r.mixer.volume == p.mixer.volume
    ensures p.bar.dragging ==> r.playing == p.playing && (!r.playing ==> r.mixer.paused)
    ensures p.bar.dragging && !p.end && p.playing ==> r.mixer.paused == p.mixer.paused
    ensures p.bar.dragging ==> (r.end <==> p.end && r.bar.knob == End(lay.seek))
    ensures p.bar.dragging ==>
      && r.sound == p.sound && r.volume == p.volume && r.last == p.last && r.song == p.song
      && r.name == p.name && r.resetArmed == p.resetArmed
    ensures !p.bar.dragging ==> r == p
    ensures Inv(lay, p) ==> Inv(lay, r)
  {
    if p.bar.dragging then
      var (bar, time) := PlayBackBar.SetPos(lay.seek, p.bar, x);
      SetTime(p.(bar := bar), time)
    else p
  }

  /** Pressing on the volume slider moves its knob to the pointer and starts a drag; the
      song keeps playing. */
  function SoundBarPressed(lay: Layout, p: State, hit: bool, x: int): (r: State)
    requires LayoutValid(lay)
    ensures hit ==> r == p.(sound := SoundBar.SetPos(lay.sound, p.sound, x).(dragging := true))
    ensures !hit ==> r == p
    ensures Inv(lay, p) ==> Inv(lay, r)
  {
    if hit then p.(sound := SoundBar.SetPos(lay.sound, p.sound, x).(dragging := true)) else p
  }

  function SoundBarCompressed(lay: Layout, p: State): (r: State)
    ensures !r.sound.dragging && r == p.(sound := p.sound.(dragging := false))
    ensures Inv(lay, p) ==> Inv(lay, r)
  {
    if p.sound.dragging then p.(sound := p.sound.(dragging := false)) else p
  }

  /** Moving the pointer during a volume drag moves the knob to it. */
  function SoundBarMov(lay: Layout, p: State, x: int): (r: State)
    requires LayoutValid(lay)
    ensures p.sound.dragging ==> r == p.(sound := SoundBar.SetPos(lay.sound, p.sound, x))
    ensures !p.sound.dragging ==> r == p
    ensures Inv(lay, p) ==> Inv(lay, r)
  {
    if p.sound.dragging then p.(sound := SoundBar.SetPos(lay.sound, p.sound, x)) else p
  }

  /** Real time passing in the engine: while it runs, the player's seconds move on with
      its clock. */
  function Advance(p: State, ms: nat): (r: State)
    ensures r == p.(mixer := r.mixer)
    ensures Elapsed(r) == if p.mixer.paused then Elapsed(p) else Elapsed(p) + ms as real / 1000.0
    ensures Engine.Valid(p.mixer) ==> Engine.Valid(r.mixer)
    ensures Engine.Playhead(r.mixer) - Engine.Playhead(p.mixer) == Elapsed(r) - Elapsed(p)
  {
    p.(mixer := Engine.Advance(p.mixer, ms))
  }

  /** One tick of the scrolling title. */
  function Scroll(lay: Layout, p: State): (r: State)
    requires p.name.name.Some?
    ensures r == p.(name := r.name)
    ensures r.name.name == p.name.name && r.name.width == p.name.width
    ensures r.name.x == p.name.x - 1 || r.name.x == 0
    ensures Inv(lay, p) ==> Inv(lay, r)
  {
    p.(name := SongName.ShowName(p.name))
  }

  /** The events the program's loop hands to the player: pointer presses (with whether
      they hit the control), releases and moves, a song chosen, a frame drawn, a tick of
      the title's scroll timer, and engine time passing. */
  datatype Event =
    | VolumeButtonDown(hit: bool)
    | PlayButtonDown(hit: bool)
    | PlayButtonUp
    | ResetButtonDown(hit: bool)
    | ResetButtonUp
    | SeekDown(hit: bool, x: int)
    | SeekUp
    | SeekMove(x: int)
    | VolumeDown(hit: bool, x: int)
    | VolumeUp
    | VolumeMove(x: int)
    | Load(filename: string, duration: real, width: nat)
    | Render(dt: real)
    | ScrollTick
    | EngineTime(ms: nat)

  /** Inputs the outside world can produce: a song's length and a frame's length are never
      negative. */
  predicate Admissible(e: Event) {
    && (e.Load? ==> 0.0 <= e.duration)
    && (e.Render? ==> 0.0 <= e.dt)
  }

  /** Applies one event. None stands for the program raising. The seek slider's knob time
      divides by the song's duration, which is 0 with no song loaded: pressing and dragging
      on the slider read it, every frame reads it to draw the slider's label, and a restart
      (releasing an armed reset button, or pressing play on an ended song) reads it when it
      puts the knob back at the start. A frame also draws the title, and the title scroll
      draws on it, and there is no title before the first song. */
  function Step(lay: Layout, p: State, e: Event): (r: Option<State>)
    requires LayoutValid(lay) && Admissible(e)
  {
    var loaded := 0.0 < p.bar.duration;
    match e
    case VolumeButtonDown(hit) => Some(VolumeBtnPressed(lay, p, hit))
    case PlayButtonDown(hit) =>
      if hit && p.end && !loaded then None else Some(PlayBtnPressed(lay, p, hit))
    case PlayButtonUp => Some(PlayBtnCompressed(p))
    case ResetButtonDown(hit) => Some(ResetBtnPressed(lay, p, hit))
    case ResetButtonUp => if p.resetArmed && !loaded then None else Some(ResetBtnCompressed(lay, p))
    case SeekDown(hit, x) => if hit && !loaded then None else Some(PlayBarPressed(lay, p, hit, x))
    case SeekUp => Some(PlayBarCompressed(p))
    case SeekMove(x) => if p.bar.dragging && !loaded then None else Some(PlayBarMov(lay, p, x))
    case VolumeDown(hit, x) => Some(SoundBarPressed(lay, p, hit, x))
    case VolumeUp => Some(SoundBarCompressed(lay, p))
    case VolumeMove(x) => Some(SoundBarMov(lay, p, x))
    case Load(filename, duration, width) => Some(ChangeSong(lay, p, filename, duration, width))
    case Render(dt) => if !loaded || p.name.name.None? then None else Some(Frame(lay, p, dt))
    case ScrollTick => if p.name.name.None? then None else Some(Scroll(lay, p))
    case EngineTime(ms) => Some(Advance(p, ms))
  }

  /** Every event of the sequence in turn, or None once one of them makes the program raise. */
  function Run(lay: Layout, p: State, es: seq<Event>): Option<State>
    requires LayoutValid(lay) && forall i :: 0 <= i < |es| ==> Admissible(es[i])
    decreases |es|
  {
    if es == [] then Some(p)
    else match Step(lay, p, es[0])
      case None => None
      case Some(q) => Run(lay, q, es[1..])
  }

  /** Every event keeps the invariant, and from a reachable state the program raises
      exactly when, with no song of positive length loaded, the seek slider is pressed or
      dragged, a frame is drawn, an armed reset button is released or play is pressed on an
      ended song; or when the title is scrolled before any song is loaded. */
  lemma StepPreservesInv(lay: Layout, p: State, e: Event)
    requires Inv(lay, p) && Admissible(e)
    ensures Step(lay, p, e).Some? ==> Inv(lay, Step(lay, p, e).value)
    ensures Step(lay, p, e).None? <==>
      || (p.bar.duration == 0.0 &&
          (|| (e.PlayButtonDown? && e.hit && p.end)
           || (e.ResetButtonUp? && p.resetArmed)
           || (e.SeekDown? && e.hit)
           || (e.SeekMove? && p.bar.dragging)
           || e.Render?))
      || (e.ScrollTick? && p.name.name.None?)
  {
  }

  /** Runs of events from a reachable state end in reachable states. */
  lemma {:induction false} RunPreservesInv(lay: Layout, p: State, es: seq<Event>)
    requires Inv(lay, p) && forall i :: 0 <= i < |es| ==> Admissible(es[i])
    ensures Run(lay, p, es).Some? ==> Inv(lay, Run(lay, p, es).value)
    decreases |es|
  {
    if es != [] {
      StepPreservesInv(lay, p, es[0]);
      var q := Step(lay, p, es[0]);
      if q.Some? {
        assert forall i :: 0 <= i < |es[1..]| ==> Admissible(es[1..][i]) by {
          forall i | 0 <= i < |es[1..]|
            ensures Admissible(es[1..][i])
          {
            assert es[1..][i] == es[i + 1];
          }
        }
        RunPreservesInv(lay, q.value, es[1..]);
      }
    }
  }

  /** Whatever the user does from the corrected start-up, the volume knob stays on its track, the
      volume stays between 0 and 100, the seconds into the song are never negative and
      agree with the engine, and an ended song is not playing. */
  lemma Reachable(lay: Layout, es: seq<Event>)
    requires LayoutValid(lay) && forall i :: 0 <= i < |es| ==> Admissible(es[i])
    ensures var r := Run(lay, Init(lay), es);
      r.Some? ==>
        && Contains(lay.sound, r.value.sound.knob)
        && 0.0 <= r.value.volume <= 100.0
        && 0.0 <= Elapsed(r.value)
        && Elapsed(r.value) == Engine.Playhead(r.value.mixer)
        && (r.value.end ==> !r.value.playing)
  {
    RunPreservesInv(lay, Init(lay), es);
  }

  /** The player exactly as the program builds it, with the volume slider's remembered
      column starting at 0. It differs from the corrected start-up only in that column,
      and it lies outside the invariant whenever the volume track starts right of
      column 0. */
  function InitAsWritten(lay: Layout): (p: State)
    requires LayoutValid(lay)
    ensures p == Init(lay).(sound := p.sound)
    ensures p.sound.knob == lay.soundHome && p.sound.last == 0 && !p.sound.mute && !p.sound.dragging
    ensures 0 < lay.sound.start ==> !Inv(lay, p)
  {
    Init(lay).(sound := SoundBar.InitAsWritten(lay.soundHome))
  }

  /** As the program builds it, loading a song, dragging the volume knob to the start of
      its track, pressing the mute button and drawing a frame hands a negative volume to
      the player when the track starts right of column 0. */
  lemma NegativeVolumeAsWritten(lay: Layout, filename: string, duration: real, width: nat)
    requires LayoutValid(lay) && 0 < lay.sound.start && 0.0 < duration
    ensures var r := Run(lay, InitAsWritten(lay),
                         [Load(filename, duration, width), VolumeDown(true, lay.sound.start),
                          VolumeButtonDown(true), Render(0.0)]);
      r.Some? && r.value.volume < 0.0
  {
    var es := [Load(filename, duration, width), VolumeDown(true, lay.sound.start),
               VolumeButtonDown(true), Render(0.0)];
    var p0 := InitAsWritten(lay);
    var p1 := ChangeSong(lay, p0, filename, duration, width);
    var p2 := SoundBarPressed(lay, p1, true, lay.sound.start);
    var p3 := VolumeBtnPressed(lay, p2, true);
    assert p3.sound.knob == 0;
    var p4 := Frame(lay, p3, 0.0);
    assert Run(lay, p0, es) == Run(lay, p1, es[1..]);
    assert es[1..][1..] == [VolumeButtonDown(true), Render(0.0)];
    assert es[1..][1..][1..] == [Render(0.0)];
    assert Run(lay, p1, es[1..]) == Run(lay, p2, es[1..][1..]);
    assert Run(lay, p2, es[1..][1..]) == Run(lay, p3, [Render(0.0)]);
    assert Run(lay, p3, [Render(0.0)]) == Some(p4);
    SoundBar.UnmuteAfterDragMuteLeavesTrack(lay.sound, lay.soundHome);
  }

  /** Seeking and then reading the time in a zero-length frame, the engine clock not having
      moved, gives back the seek target bounded by the duration; below the duration the
      reading leaves the player as the seek left it. */
  lemma SetTimeThenGetTime(p: State, time: real)
    ensures GetTime(SetTime(p, time), 0.0).0 == Min(time, p.bar.duration)
    ensures time < p.bar.duration ==> GetTime(SetTime(p, time), 0.0).1 == SetTime(p, time)
  {
  }

  /** Reading the time twice in one frame gives the same reading and state as once. */
  lemma GetTimeTwice(p: State, dt: real)
    ensures GetTime(GetTime(p, dt).1, dt) == GetTime(p, dt)
  {
  }

  /** Seek-drag moves: each one seeks to the pointer. */
  function Drag(lay: Layout, p: State, xs: seq<int>): (r: State)
    requires LayoutValid(lay) && 0.0 < p.bar.duration
    ensures r.bar.duration == p.bar.duration
    decreases |xs|
  {
    if xs == [] then p else Drag(lay, PlayBarMov(lay, p, xs[0]), xs[1..])
  }

  /** During a seek drag begun on a paused player, moves keep it paused and dragging,
      keep the was-playing flag, never raise the ended flag, and keep the invariant. */
  lemma {:induction false} DragKeepsPaused(lay: Layout, p: State, xs: seq<int>)
    requires Inv(lay, p) && 0.0 < p.bar.duration && p.bar.dragging && !p.playing && p.mixer.paused
    ensures var r := Drag(lay, p, xs);
      && Inv(lay, r) && r.bar.dragging && !r.playing && r.mixer.paused && r.last == p.last
      && (r.end ==> p.end)
      && Elapsed(r) == (if xs == [] then Elapsed(p) else PlayBackBar.Position(lay.seek, r.bar))
    decreases |xs|
  {
    if xs != [] {
      var q := PlayBarMov(lay, p, xs[0]);
      DragKeepsPaused(lay, q, xs[1..]);
    }
  }

  /** The seek-drag protocol: press on the slider, any number of moves, release. The
      player ends up playing exactly when it was playing before the press, at the time
      the knob was left at, with the drag over. */
  lemma SeekDragRestoresPlayback(lay: Layout, p: State, x: int, xs: seq<int>)
    requires Inv(lay, p) && 0.0 < p.bar.duration
    ensures var q := PlayBarPressed(lay, p, true, x);
      var r := PlayBarCompressed(Drag(lay, q, xs));
      && !q.playing && q.last == p.playing && q.bar.dragging
      && Inv(lay, r) && !r.bar.dragging
      && r.playing == p.playing && r.mixer.paused == !p.playing
      && Elapsed(r) == PlayBackBar.Position(lay.seek, r.bar)
  {
    var q := PlayBarPressed(lay, p, true, x);
    assert !q.end || p.end;
    DragKeepsPaused(lay, q, xs);
  }

  /** A click on the play/pause button, press then release. On a song that has ended it
      plays the song from its start; otherwise it flips between playing and paused, and
      the engine follows the flag. */
  lemma PlayClick(lay: Layout, p: State)
    requires Inv(lay, p) && (p.end ==> 0.0 < p.bar.duration)
    ensures var r := PlayBtnCompressed(PlayBtnPressed(lay, p, true));
      && Inv(lay, r)
      && (p.end ==> r.playing && !r.end && !r.mixer.paused && Elapsed(r) == 0.0)
      && (!p.end ==> r.playing == !p.playing && r.mixer.paused == p.playing && Elapsed(r) == Elapsed(p))
  {
    var q := PlayBtnPressed(lay, p, true);
    StepPreservesInv(lay, p, PlayButtonDown(true));
    StepPreservesInv(lay, q, PlayButtonUp);
  }

  /** A click on the reset button, press then release: the song is back at its start with
      the seek knob at the start of the track, playing if it was playing or had ended. */
  lemma ResetClick(lay: Layout, p: State)
    requires Inv(lay, p) && 0.0 < p.bar.duration
    ensures var r := ResetBtnCompressed(lay, ResetBtnPressed(lay, p, true));
      && Inv(lay, r) && !r.resetArmed && !r.end
      && Elapsed(r) == 0.0 && r.bar.knob == lay.seek.start
      && r.playing == (p.playing || p.end) && r.mixer.paused == !r.playing
  {
    var q := ResetBtnPressed(lay, p, true);
    StepPreservesInv(lay, p, ResetButtonDown(true));
  }
}

=== FILE: song_name.dfy ===
/** The scrolling song title: the rendered name moves one pixel left per tick and jumps
    back to offset 0 once it has scrolled past its own width. */
module SongName {
  import opened Wrappers

  /** name: the rendered title text, None before a song is loaded; width: the rendered
      text's width in pixels, as the font reports it; x: the current scroll offset. */
  datatype Marquee = Marquee(name: Option<string>, width: nat, x: int)

  /** The offset stays between minus the text width and 0. */
  predicate Valid(m: Marquee) {
    -(m.width as int) <= m.x <= 0
  }

  /** No title, offset back at 0. */
  function Reset(m: Marquee): (r: Marquee)
    ensures r.name.None? && r.x == 0 && Valid(r)
  {
    Marquee(None, 0, 0)
  }

  /** The title as rendered: the song's name with three spaces either side. The offset is
      left where it is; the width is what the font reports for that text. */
  function UpdateSong(m: Marquee, song: string, width: nat): (r: Marquee)
    ensures r.name == Some("   " + song + "   ") && r.width == width && r.x == m.x
  {
    Marquee(Some("   " + song + "   "), width, m.x)
  }

  /** One tick of the scroll; the program draws on the title, so it needs one. The offset
      moves one pixel left, or wraps to 0 once it would pass minus the width. */
  function ShowName(m: Marquee): (r: Marquee)
    requires m.name.Some?
    ensures r.name == m.name && r.width == m.width
    ensures r.x == m.x - 1 || r.x == 0
    ensures Valid(m) ==> Valid(r)
    ensures Valid(m) && r.x == 0 ==> m.x == -(m.width as int)
  {
    var x := m.x - 1;
    if x < -(m.width as int) then m.(x := 0) else m.(x := x)
  }

  /** n ticks of the scroll; they keep the title and its width. */
  function Ticks(m: Marquee, n: nat): (r: Marquee)
    requires m.name.Some?
    ensures r.name == m.name && r.width == m.width
    decreases n
  {
    if n == 0 then m else ShowName(Ticks(m, n - 1))
  }

  /** Ticking a + b times is ticking a times, then b more. */
  lemma {:induction false} TicksAdd(m: Marquee, a: nat, b: nat)
    requires m.name.Some?
    ensures Ticks(m, a + b) == Ticks(Ticks(m, a), b)
    decreases b
  {
    if b > 0 {
      TicksAdd(m, a, b - 1);
    }
  }

  /** From offset 0 the title scrolls one pixel left per tick until it has moved by its
      whole width, and the next tick wraps it back to offset 0. */
  lemma {:induction false} TicksFromStart(m: Marquee, n: nat)
    requires m.name.Some? && m.x == 0 && n <= m.width + 1
    ensures Ticks(m, n).x == if n == m.width + 1 then 0 else -(n as int)
    decreases n
  {
    if n > 0 {
      TicksFromStart(m, n - 1);
    }
  }

  /** From offset 0 the scroll repeats every width + 1 ticks, and it never leaves
      [-width, 0]. */
  lemma TicksPeriodic(m: Marquee, n: nat)
    requires m.name.Some? && m.x == 0
    ensures Ticks(m, n + m.width + 1) == Ticks(m, n)
    ensures Valid(Ticks(m, n))
  {
    var k := m.width + 1;
    TicksFromStart(m, k);
    assert Ticks(m, k) == m;
    TicksAdd(m, k, n);
    assert Ticks(m, n + m.width + 1) == Ticks(m, k + n);
    TicksValid(m, n);
  }

  /** Ticking keeps a valid offset valid. */
  lemma {:induction false} TicksValid(m: Marquee, n: nat)
    requires m.name.Some? && Valid(m)
    ensures Valid(Ticks(m, n))
    decreases n
  {
    if n > 0 {
      TicksValid(m, n - 1);
    }
  }
}

=== FILE: sound_bar.dfy ===
/** The volume slider: a knob on a fixed pixel track standing for a volume of 0 to 100,
    a mute flag, and the knob column remembered while muted so unmuting can restore it. */
module SoundBar {
  import opened Track

  /** knob: the knob's centre column; last: the column remembered by the mute button;
      mute: the mute flag; dragging: the pointer grabbed the knob and has not let go. */
  datatype Bar = Bar(knob: int, last: int, mute: bool, dragging: bool)

  /** The knob and the remembered column lie on the track, and a muted bar has its
      knob at the start of the track. */
  predicate Consistent(t: Track, b: Bar) {
    && Contains(t, b.knob)
    && Contains(t, b.last)
    && (b.mute ==> b.knob == t.start)
  }

  /** The bar as the program builds it, except that the remembered column starts at the
      knob's starting column `home` instead of at column 0. */
  function Init(t: Track, home: int): (b: Bar)
    requires Valid(t) && Contains(t, home)
    ensures Consistent(t, b)
    ensures b.knob == home && !b.mute && !b.dragging
  {
    Bar(home, home, false, false)
  }

  /** The bar exactly as the program builds it: the remembered column starts at 0. */
  function InitAsWritten(home: int): (b: Bar)
    ensures b.knob == home && b.last == 0 && !b.mute && !b.dragging
  {
    Bar(home, 0, false, false)
  }

  /** The volume, 0 to 100, that the knob stands for. */
  function Volume(t: Track, b: Bar): (v: real)
    requires Valid(t)
    ensures Contains(t, b.knob) ==> 0.0 <= v <= 100.0
    ensures v == 0.0 <==> b.knob == t.start
    ensures v == 100.0 <==> b.knob == End(t)
  {
    Value(t, b.knob, 100.0)
  }

  /** Moves the knob to the pointer column bounded onto the track; the bar is muted
      exactly when the knob lands on the track's start. */
  function SetPos(t: Track, b: Bar, x: int): (r: Bar)
    requires Valid(t)
    ensures Contains(t, r.knob)
    ensures forall y :: Contains(t, y) ==> Dist(r.knob, x) <= Dist(y, x)
    ensures r.mute <==> Volume(t, r) == 0.0
    ensures r.last == b.last && r.dragging == b.dragging
    ensures Consistent(t, b) ==> Consistent(t, r)
  {
    var mx := Clamp(t.start, End(t), x);
    b.(knob := mx, mute := mx == t.start)
  }

  /** The mute button: muting remembers the knob and parks it at the start of the track;
      unmuting puts the knob back at the remembered column. */
  function ReverseState(t: Track, b: Bar): (r: Bar)
    ensures r.mute == !b.mute && r.dragging == b.dragging
    ensures r.mute ==> r.knob == t.start && r.last == b.knob
    ensures !r.mute ==> r.knob == b.last && r.last == b.last
    ensures Consistent(t, b) ==> Consistent(t, r)
  {
    var mute := !b.mute;
    if mute then b.(mute := mute, last := b.knob, knob := t.start)
    else b.(mute := mute, knob := b.last)
  }

  /** A muted bar stands for volume 0. */
  lemma MutedIsSilent(t: Track, b: Bar)
    requires Valid(t) && Consistent(t, b) && b.mute
    ensures Volume(t, b) == 0.0
  {
  }

  /** Pressing the mute button twice gives back the knob column and the mute flag; from a
      muted bar it gives back the whole bar. Only a muted knob needs to sit at the start,
      so this holds for the bar as written too. */
  lemma ReverseStateTwice(t: Track, b: Bar)
    requires b.mute ==> b.knob == t.start
    ensures ReverseState(t, ReverseState(t, b)).knob == b.knob
    ensures ReverseState(t, ReverseState(t, b)).mute == b.mute
    ensures b.mute ==> ReverseState(t, ReverseState(t, b)) == b
  {
  }

  /** Drawing a volume on the slider and reading it back loses less than one pixel's
      worth of volume and never overshoots. */
  lemma VolumeOfPixel(t: Track, b: Bar, v: real)
    requires Valid(t) && 0.0 <= v <= 100.0
    ensures var r := SetPos(t, b, Pixel(t, v, 100.0));
      v - 100.0 / t.length as real < Volume(t, r) <= v
  {
    PixelInTrack(t, v, 100.0);
    ValueOfPixel(t, v, 100.0);
  }

  /** As the program builds the bar, dragging the knob to the start of the track and then
      pressing the mute button unmutes it onto column 0: off a track that starts right of
      column 0, standing for a negative volume. */
  lemma UnmuteAfterDragMuteLeavesTrack(t: Track, home: int)
    requires Valid(t) && 0 < t.start && Contains(t, home)
    ensures var r := ReverseState(t, SetPos(t, InitAsWritten(home), t.start));
      !r.mute && r.knob == 0 && !Contains(t, r.knob) && Volume(t, r) < 0.0
  {
    var r := ReverseState(t, SetPos(t, InitAsWritten(home), t.start));
    var v := Volume(t, r);
    assert v * Scale(t, 100.0) == (0 - t.start) as real;
  }
}

=== FILE: time_label.dfy ===
/** The seek slider's text label "M:SS / M:SS": elapsed and total time, each as whole
    minutes, a colon and two-digit seconds. A parser for the label is the partner that
    shows the text determines both times. */
module TimeLabel {
  import opened Wrappers
  import opened Track
  import PlayBackBar

  predicate IsDigit(c: char) {
    '0' <= c <= '9'
  }

  predicate AllDigits(s: string) {
    forall i :: 0 <= i < |s| ==> IsDigit(s[i])
  }

  function DigitValue(c: char): int
    requires IsDigit(c)
  {
    c as int - '0' as int
  }

  function DigitChar(d: int): (c: char)
    requires 0 <= d < 10
    ensures IsDigit(c) && DigitValue(c) == d
  {
    ('0' as int + d) as char
  }

  /** The number a string of decimal digits spells, most significant digit first. */
  function DigitsValue(s: string): nat
    requires AllDigits(s)
    decreases |s|
  {
    if s == [] then 0 else DigitsValue(s[..|s| - 1]) * 10 + DigitValue(s[|s| - 1])
  }

  /** Python's "{:d}" of a natural number: its decimal digits with no leading zero. */
  function NatDecimal(n: nat): (s: string)
    ensures 1 <= |s| && AllDigits(s)
    ensures 1 < |s| ==> s[0] != '0'
    decreases n
  {
    if n < 10 then [DigitChar(n)] else NatDecimal(n / 10) + [DigitChar(n % 10)]
  }

  /** Python's "{:d}" (and "{:>d}", which pads to no width) of an integer. */
  function Decimal(n: int): string {
    if n < 0 then "-" + NatDecimal(-n) else NatDecimal(n)
  }

  /** Python's "{:02d}" of a value below 100: two digits, zero padded, spelling n. */
  function Pad2(n: int): (s: string)
    requires 0 <= n < 100
    ensures |s| == 2 && AllDigits(s) && DigitsValue(s) == n
  {
    var s := [DigitChar(n / 10), DigitChar(n % 10)];
    assert s[..1] == [DigitChar(n / 10)];
    assert s[..1][..0] == [];
    assert DigitsValue(s[..1]) == n / 10;
    assert DigitsValue(s) == (n / 10) * 10 + n % 10;
    s
  }

  /** One clock reading: whole minutes with no hour field, a colon, then the seconds of
      the minute. Python's // and % by 60 floor, which Dafny's / and % do for a positive
      divisor. */
  function Clock(secs: int): string {
    Decimal(secs / 60) + ":" + Pad2(secs % 60)
  }

  /** The label text for the elapsed and the total whole seconds. */
  function Label(now: int, total: int): string {
    Clock(now) + " / " + Clock(total)
  }


  function ParseNat(s: string): Option<nat> {
    if 1 <= |s| && AllDigits(s) then Some(DigitsValue(s)) else None
  }

  /** Reads a clock back: digits, a colon, two digits of seconds below 60. */
  function ParseClock(c: string): Option<nat> {
    if |c| < 4 || c[|c| - 3] != ':' then None
    else
      match (ParseNat(c[..|c| - 3]), ParseNat(c[|c| - 2..]))
      case (Some(m), Some(s)) => if s < 60 then Some(m * 60 + s) else None
      case _ => None
  }

  /** The first position of c in s, or |s| when it does not occur. */
  function IndexOf(s: string, c: char): (i: nat)
    ensures i <= |s|
    ensures i < |s| ==> s[i] == c
    ensures forall j :: 0 <= j < i ==> s[j] != c
    decreases |s|
  {
    if s == [] then 0 else if s[0] == c then 0 else 1 + IndexOf(s[1..], c)
  }

  /** Reads a label back into the elapsed and total whole seconds. */
  function ParseLabel(s: string): Option<(nat, nat)> {
    var i := IndexOf(s, ' ');
    if i + 3 <= |s| && s[i..i + 3] == " / " then
      match (ParseClock(s[..i]), ParseClock(s[i + 3..]))
      case (Some(a), Some(b)) => Some((a, b))
      case _ => None
    else None
  }

  /** The digits of a natural number spell that number. */
  lemma {:induction false} DecimalValue(n: nat)
    ensures DigitsValue(NatDecimal(n)) == n
    decreases n
  {
    var s := NatDecimal(n);
    if n < 10 {
      assert s[..|s| - 1] == [];
    } else {
      DecimalValue(n / 10);
      assert s[..|s| - 1] == NatDecimal(n / 10);
    }
  }

  /** A clock reading of a non-negative time reads back as that time. */
  lemma ClockRoundTrip(secs: nat)
    ensures ParseClock(Clock(secs)) == Some(secs)
  {
    var m, s := secs / 60, secs % 60;
    var c := Clock(secs);
    var d := NatDecimal(m);
    assert c == d + ":" + Pad2(s);
    assert c[..|c| - 3] == d;
    assert c[|c| - 2..] == Pad2(s);
    DecimalValue(m);
  }

  /** A clock reading of a non-negative time holds digits and a colon, no space. */
  lemma ClockHasNoSpace(secs: nat)
    ensures forall j :: 0 <= j < |Clock(secs)| ==> Clock(secs)[j] != ' '
  {
    var c := Clock(secs);
    var d := NatDecimal(secs / 60);
    assert c == d + ":" + Pad2(secs % 60);
    forall j | 0 <= j < |c|
      ensures c[j] != ' '
    {
      if j < |d| {
        assert c[j] == d[j];
      }
    }
  }

  /** The label of non-negative elapsed and total times reads back as both times: the
      minutes are never cut at an hour and the seconds always take two digits. */
  lemma LabelRoundTrip(now: nat, total: nat)
    ensures ParseLabel(Label(now, total)) == Some((now, total))
  {
    var a, b := Clock(now), Clock(total);
    var s := Label(now, total);
    ClockHasNoSpace(now);
    assert s[|a|] == ' ';
    forall j | 0 <= j < |a|
      ensures s[j] != ' '
    {
      assert s[j] == a[j];
    }
    var i := IndexOf(s, ' ');
    assert i == |a|;
    assert s[i..i + 3] == " / ";
    assert s[..i] == a;
    assert s[i + 3..] == b;
    ClockRoundTrip(now);
    ClockRoundTrip(total);
  }

  /** A label of two times reads back as both, when neither is negative. */
  lemma LabelReadsBack(now: int, total: int)
    ensures 0 <= now && 0 <= total ==> ParseLabel(Label(now, total)) == Some((now, total))
  {
    if 0 <= now && 0 <= total {
      LabelRoundTrip(now, total);
    }
  }

  /** The label the seek slider shows: both times truncated to whole seconds by int().
      For a knob on the track it reads back as the knob's whole seconds and the song's
      whole seconds. */
  function ShowTime(t: Track, b: PlayBackBar.Bar): (s: string)
    requires Valid(t) && 0.0 < b.duration
    ensures Contains(t, b.knob) ==>
      ParseLabel(s) == Some((Trunc(PlayBackBar.Position(t, b)), Trunc(b.duration)))
  {
    var now, total := Trunc(PlayBackBar.Position(t, b)), Trunc(b.duration);
    LabelReadsBack(now, total);
    Label(now, total)
  }
}

=== FILE: track.dfy ===
/** Horizontal slider tracks shared by the volume slider and the seek slider: clamping a
    pointer column onto the track, and the linear maps between a knob pixel and the value
    (volume percent, seconds of playback) that the knob stands for. */
module Track {

  /** A track on screen: the pixel column it starts at and its length in pixels. */
  datatype Track = Track(start: int, length: int)

  /** Screen columns are non-negative, and a track is at least one pixel long. */
  predicate Valid(t: Track) {
    0 <= t.start && 0 < t.length
  }

  /** The track's last column; the screen layout defines it as start plus length. */
  function End(t: Track): int {
    t.start + t.length
  }

  predicate Contains(t: Track, x: int) {
    t.start <= x <= End(t)
  }

  /** Distance between two pixel columns. */
  function Dist(a: int, b: int): nat {
    if a <= b then b - a else a - b
  }

  /** Bounds a pointer column into [lo, hi]: the point of the interval nearest to v. */
  function Clamp(lo: int, hi: int, v: int): (r: int)
    requires lo <= hi
    ensures lo <= r <= hi
    ensures forall y :: lo <= y <= hi ==> Dist(r, v) <= Dist(y, v)
  {
    if v < lo then lo else if hi < v then hi else v
  }

  /** Python's int() of a float: truncation toward zero, never a whole unit away. */
  function Trunc(x: real): (n: int)
    ensures x - 1.0 < n as real < x + 1.0
    ensures 0.0 <= x ==> 0 <= n && n as real <= x
    ensures x <= 0.0 ==> n <= 0 && x <= n as real
  {
    if 0.0 <= x then x.Floor else -((-x).Floor)
  }

  /** Pixels per unit of value on a track that stands for the values [0, range]. */
  function Scale(t: Track, range: real): (u: real)
    requires Valid(t) && 0.0 < range
    ensures 0.0 < u
    ensures u * range == t.length as real
  {
    t.length as real / range
  }

  /** The value a knob pixel stands for: its offset from the start over pixels per unit. */
  function Value(t: Track, knob: int, range: real): (v: real)
    requires Valid(t) && 0.0 < range
    ensures v * Scale(t, range) == (knob - t.start) as real
    ensures Contains(t, knob) ==> 0.0 <= v <= range
    ensures v == 0.0 <==> knob == t.start
    ensures v == range <==> knob == End(t)
  {
    var u := Scale(t, range);
    var v := (knob - t.start) as real / u;
    BoundsByScale(knob - t.start, t.length, u, range, v);
    v
  }

  /** Division by the positive scale keeps [0, length] pixels inside [0, range] units. */
  lemma BoundsByScale(d: int, len: int, u: real, range: real, v: real)
    requires 0.0 < u && u * range == len as real && v == d as real / u
    ensures v * u == d as real
    ensures 0 <= d <= len ==> 0.0 <= v <= range
    ensures v == 0.0 <==> d == 0
    ensures v == range <==> d == len
  {
    if 0 <= d <= len {
      assert v * u <= range * u;
    }
    if v == range {
      assert d as real == range * u;
    }
  }

  /** The pixel a value is drawn at: start plus value times pixels per unit, truncated. */
  function Pixel(t: Track, v: real, range: real): int
    requires Valid(t) && 0.0 < range
  {
    Trunc(t.start as real + v * Scale(t, range))
  }

  /** Moving the knob further right never lowers the value it stands for. */
  lemma ValueMonotone(t: Track, a: int, b: int, range: real)
    requires Valid(t) && 0.0 < range && a <= b
    ensures Value(t, a, range) <= Value(t, b, range)
  {
    var u := Scale(t, range);
    var va, vb := Value(t, a, range), Value(t, b, range);
    assert va * u <= vb * u;
  }

  /** Reading a knob's value and drawing that value again lands on the same pixel. */
  lemma PixelOfValue(t: Track, knob: int, range: real)
    requires Valid(t) && 0.0 < range
    ensures Pixel(t, Value(t, knob, range), range) == knob
  {
    var v := Value(t, knob, range);
    assert t.start as real + v * Scale(t, range) == knob as real;
  }

  /** Drawing a value and reading the knob back loses less than one pixel's worth of value,
      and never overshoots for a value drawn right of the screen's left edge. */
  lemma ValueOfPixel(t: Track, v: real, range: real)
    requires Valid(t) && 0.0 < range
    ensures var w := Value(t, Pixel(t, v, range), range);
      v - range / t.length as real < w < v + range / t.length as real
    ensures 0.0 <= t.start as real + v * Scale(t, range) ==> Value(t, Pixel(t, v, range), range) <= v
  {
    var u := Scale(t, range);
    var x := t.start as real + v * u;
    var p := Pixel(t, v, range);
    var w := Value(t, p, range);
    assert w * u == p as real - t.start as real;
    assert (w - v) * u == p as real - x;
    assert -1.0 < (w - v) * u < 1.0;
    var e := range / t.length as real;
    var len := t.length as real;
    assert e * len == range;
    assert (e * u) * range == e * (u * range) == e * len;
    assert e * u == 1.0;
    assert (w - v) * u < e * u;
    assert -(e * u) < (w - v) * u;
    if 0.0 <= x {
      assert (w - v) * u <= 0.0;
    }
  }

  /** A value in [0, range] is drawn on the track, and one below range left of its end. */
  lemma PixelInTrack(t: Track, v: real, range: real)
    requires Valid(t) && 0.0 < range
    ensures 0.0 <= v <= range ==> Contains(t, Pixel(t, v, range))
    ensures 0.0 <= v < range ==> Pixel(t, v, range) < End(t)
  {
    var u := Scale(t, range);
    if 0.0 <= v <= range {
      assert 0.0 <= v * u <= range * u;
    }
    if 0.0 <= v < range {
      assert v * u < range * u;
      var x := t.start as real + v * u;
      assert 0.0 <= x < End(t) as real;
      assert Pixel(t, v, range) as real <= x;
    }
  }
}

=== FILE: wrappers.dfy ===
/** Optional values: a song that may not be loaded, a transition the program would abort. */
module Wrappers {

  datatype Option<+T> = None | Some(value: T)
}
